=== FILE: README.md ===
# DataPulse dashboard: the pure logic, modelled in Dafny

DataPulse is a browser analytics dashboard. It shows four headline metrics
with percent-change badges, three charts, a table of 25 transactions and an
alert feed, and it regenerates all of it from random mock data. Most of
`script.js` is DOM and Chart.js plumbing. This project models the
sequential logic underneath it. `Math.random()` becomes an oracle sequence
of draws in `[0, 1)`. `Date.now()` becomes an integer parameter in epoch
milliseconds. `Math.sin` and the runtime's locale formatters become
caller-supplied functions.

Modules (one file each):

- `Options` (options.dfy): `Option`.
- `Text` (text.dfy): decimal rendering and parsing of naturals, `padStart`, ASCII lower-casing, substring search.
- `Draws` (draws.dfy): draws in `[0, 1)` and `Math.floor(Math.random() * n)`.
- `Sorting` (sorting.dfy): the descending-comparator sort, as an insertion sort, with its permutation and uniqueness facts.
- `Time` (time.dfy): millisecond constants and the locale formatters.
- `Trend` (trend.dfy): `generateRealisticTrend`.
- `MockData` (mock_data.dfy): the time-range `switch` of `generateMockData`.
- `RelativeTime` (relative_time.dfy): `formatTimestamp`.
- `Transactions` (transactions.dfy): `generateMockTransactions`, with weighted statuses and transaction ids.
- `Metrics` (metrics.dfy): the sign logic of `updateMetricChange` and the doughnut values.
- `Alerts` (alerts.dfy): the fixed alert pool and its order.
- `Search` (search.dfy): `searchTransactions`.

The trend bounds hold for any draws, in range or not: the clamp comes
before the floor. The generators that index arrays with a draw require
draws in `[0, 1)`, because that is what `Math.random()` promises.

When the time range is not one of `1h`, `24h`, `7d` or `30d`, the source
leaves `dataPoints` and `timeLabels` undefined. The trend loops then run no
iteration. The model gives empty series and `None` labels.

The region and department filters are stored by `applyFilters`, but no
generator reads them (script.js:382-386). The model therefore has no filter
input.

## Model

| member | source | states |
|---|---|---|
| Text.NatToString | script.js:59 | the decimal text of a natural is non-empty, all digits, and has no leading zero unless the number is 0 |
| Text.ParseNatToString | script.js:300 | parsing the decimal text of `n` gives back `n` |
| Text.NatToStringInjective | script.js:300 | two naturals have the same decimal text exactly when they are equal |
| Text.NatToStringLength | script.js:300 | a number of at least 10^k has more than k digits, and a number below 10^(k+1) has at most k+1 |
| Text.PadStart | script.js:300 | `padStart` reaches the target width with pad characters in front, and leaves a string that is already wide enough unchanged |
| Text.Lower | script.js:391-392 | lower-casing keeps the length and maps each ASCII capital to its small letter |
| Text.LowerIdempotent | script.js:391-392 | lower-casing twice is the same as lower-casing once |
| Text.Contains | script.js:392 | `includes` holds exactly when the query occurs at some offset of the text |
| Draws.Pick | script.js:293-309 | `Math.floor(r * n)` of a draw `r` in [0,1) is an index below `n`, namely the floor of `r * n` |
| Sorting.InsertDesc | script.js:313 | inserting adds exactly that one element, with multiplicity |
| Sorting.InsertDescSorted | script.js:313 | inserting into a newest-first list keeps it sorted newest first |
| Sorting.SortByKeyDesc | script.js:313 | the descending-comparator sort returns a permutation of its input with non-increasing keys |
| Sorting.PermutationKeepsInjective | script.js:313 | reordering rows cannot make two ids (or two sort keys) collide |
| Sorting.SortedOrderUnique | script.js:351 | with distinct keys, two sorted lists holding the same elements are identical |
| Trend.ShapeOf | script.js:82-94 | "revenue", "users" and "performance" select their own shapes, each if and only if; any other name selects the flat shape, which has no bias |
| Trend.Bias | script.js:80-94 | the revenue bias is always between 0.01 and 0.03; the users bias is negative exactly from 40% to 80% of the points; performance is `sin(i*0.5)*0.01`; any other name gives 0 |
| Trend.Variation | script.js:96 | a draw in [0,1) varies growth by at least -5% and less than +5% |
| Trend.Clamp | script.js:100 | `Math.max(min, Math.min(max, x))` lies in [min, max]; it keeps `x` when `x` is inside, and gives the violated bound otherwise; it gives `min` when min > max |
| Trend.Start | script.js:77 | the starting value lies within [min, max] |
| Trend.Step | script.js:96-100 | every running value after one iteration lies in [min, max], or equals min when min > max |
| Trend.RunningWithinBounds | script.js:99-102 | each running value, and its floor, lies within the integer bounds |
| Trend.GenerateRealisticTrend | script.js:75-106 | exactly max(points, 0) values; value i is the floor of the running value after i+1 clamped growth steps; every value lies in [min, max] for any draws; every value is min when min > max |
| MockData.ParseTimeRange | script.js:38-61 | exactly "1h", "24h", "7d" and "30d" select the hour, day, week and month views |
| MockData.Labels | script.js:41-59 | a view has as many labels as it has points |
| MockData.ParseDayLabelRoundTrip | script.js:59 | "Day N" reads back to N |
| MockData.LabelsContent | script.js:41-59 | hour view: locale times of 12 instants 5 minutes apart that end at now; day view: locale hours of 24 instants one hour apart, suffixed ":00"; week view: Mon to Sun; month view: labels that read back to 1..30 |
| MockData.CalendarLabelsDistinct | script.js:55-59 | the week and month labels are pairwise distinct |
| MockData.PointCount | script.js:38-61 | "1h", "24h", "7d" and "30d" give 12, 24, 7 and 30 points; any other value gives none |
| MockData.GenerateMockData | script.js:34-73 | labels are defined exactly for the four known ranges, and are then the labels of that view at the clock reading; the counts are 12/24/7/30 and the three series have the same length; unknown ranges give empty series; exact week and month labels; revenue is the revenue-shaped trend over [25000,45000] on the first n draws, users the users-shaped trend over [800,1500] on the next n, performance the performance-shaped trend over [65,95] on the last n, and each stays within its bounds |
| RelativeTime.Classify | script.js:364-371 | exactly one bucket applies: "just now" below one minute (including future timestamps), whole minutes m with m*60000 <= diff < (m+1)*60000 below an hour, whole hours likewise below a day, and the date otherwise |
| RelativeTime.FormatTimestamp | script.js:362-372 | under a minute ago (or in the future) gives "Just now"; under an hour gives the whole minutes followed by " min ago"; under a day gives the whole hours followed by "h ago"; otherwise the locale date of the timestamp |
| RelativeTime.ParseRender | script.js:368-370 | the three relative texts read back to their bucket and count, so distinct ages never share a text |
| RelativeTime.MinutesOffsetText | script.js:322-371 | a timestamp k minutes before the stamping clock, formatted less than a minute later, shows "k min ago" (or "k/60h ago" from an hour on) |
| Transactions.WeightedStatus | script.js:283-288 | success exactly when r < 0.75, pending exactly when 0.75 <= r < 0.95, failed exactly when r >= 0.95 |
| Transactions.StatusBands | script.js:281-288 | the status bands tile [0,1), each as wide as its weight, so a uniform draw gives 0.75/0.20/0.05 |
| Transactions.TxnId | script.js:300 | an id is "TXN" followed by at least seven digits |
| Transactions.TxnIdShape | script.js:300 | an id is "TXN" followed by the unpadded digits of 2024001+i, reads back to that number, and is 10 characters for the 25 rows |
| Transactions.TxnIdInjective | script.js:291-300 | rows i and j get the same id exactly when i = j |
| Transactions.MakeRow | script.js:292-310 | a row has id TXN(2024001+i), an amount of a base tier plus jitter below 3000 (so within [500, 28000)), the customer picked by its fourth draw among the 16, the weighted status of its fifth draw, the region picked by its sixth draw among the 4, and an instant a whole number of days, picked by its third draw from 0 to 13, before now |
| Transactions.Rows | script.js:290-311 | exactly 25 rows, row i built from its own six draws |
| Transactions.RowsFacts | script.js:290-311 | the generated rows have pairwise distinct ids and plausible amounts and dates |
| Transactions.GenerateMockTransactions | script.js:272-314 | 25 rows, a permutation of the generated ones, newest first, with pairwise distinct ids and in-range amounts and dates |
| Metrics.ToFixed1 | script.js:144-147 | `toFixed(1)` carries a minus sign exactly for negative input, and the nearest number of tenths (ties upward) |
| Metrics.Fixed1Text | script.js:144-147 | the `toFixed(1)` text starts with "-" exactly for a negative value, else with a digit, and ends with "." and one digit; with the sign and the point taken out, its digits read back as the number of tenths |
| Metrics.ParseFixed1 | script.js:144-147 | a text read back as a one-decimal value has a minus sign exactly when it is negative, and ends with "." and one digit |
| Metrics.Fixed1RoundTrip | script.js:144-147 | the `toFixed(1)` text reads back to the sign and tenths it was made from, so the badge shows the number whose sign picks its class |
| Metrics.ParsedValue | script.js:163 | `parseFloat` of that text is zero exactly for zero tenths, and is >= 0 exactly when the text has no minus sign or is a negative zero; its magnitude is the tenths over ten |
| Metrics.UpdateMetricChange | script.js:161-166 | the badge is positive exactly when the parsed change is >= 0, and negative exactly when it is < 0; its text starts with "+" exactly when it is positive and ends with "%" |
| Metrics.UpdateMetricChangeText | script.js:164 | the badge text is the optional "+" followed by the change and "%" |
| Metrics.NegativeZeroShowsTwoSigns | script.js:163-164 | `(-0.04).toFixed(1)` is "-0.0", and the badge shows "+-0.0%" with the positive class |
| Metrics.UpdateMetricChangeSigned | script.js:163-165 | corrected badge: positive exactly when the text carries no minus sign |
| Metrics.SignedBadgeHasOneSign | script.js:163-165 | the corrected badge shows exactly one sign, first, which agrees with its class; it differs from the as-written badge only on a negative zero |
| Metrics.PerformanceData | script.js:246-251 | segment k is draw k scaled by 20, 15, 10 or 10, floored, and offset by 35, 25, 15 or 5; so the four doughnut values lie in [35,54], [25,39], [15,24] and [5,14], good > average > poor, and the total is between 80 and 131 |
| Alerts.Pool | script.js:318-349 | six alerts, each a whole number of minutes before the stamping clock, the backup alert three hours before |
| Alerts.LoadAlerts | script.js:316-351 | the six alerts, newest first, as a permutation of the pool |
| Alerts.OrderOfSix | script.js:351 | six alerts with that timestamp order sort into exactly that order |
| Alerts.AlertOrder | script.js:318-351 | the feed order is memory, database, API, traffic, deployment, backup, whatever the clock reads |
| Alerts.Stamps | script.js:354-357 | one relative-time text per alert: text i is the formatted timestamp of alert i |
| Alerts.FeedStamps | script.js:316-371 | formatted less than a minute after stamping, the feed reads "6 min ago", "8 min ago", "12 min ago", "25 min ago", "45 min ago", "3h ago" |
| Search.RowVisible | script.js:388-394 | a row stays shown exactly when the lower-cased query occurs in its lower-cased text |
| Search.SearchTransactions | script.js:388-394 | one display value per row: "" when the row matches and "none" when it does not |
| Search.EmptyQueryShowsAll | script.js:392 | the empty query shows every row |
| Search.CaseInsensitive | script.js:391-392 | queries equal up to ASCII case select the same rows |
| Search.LongerQueryNarrows | script.js:392 | adding a character to the query can only hide rows |

## Left out

- DOM access (event listeners, `textContent`, `innerHTML`, `style.display`, class toggles, script.js:20-32, 150-158, 258-269, 352-359, 374-380): this is UI plumbing. `searchTransactions` is modelled as the display value it assigns.
- Chart.js construction and `update()` calls (script.js:168-254), including `changeChartType`: these are foreign library calls.
- Refresh orchestration (`loadInitialData`, `refreshData`, `startAutoRefresh`, `stopAutoRefresh`, script.js:108-113, 396-425): `Promise.all`, the 1000 ms `setTimeout` cooldown and the 30000 ms `setInterval` are timer and event-loop concerns.
- `updateMetrics` arithmetic (script.js:131-148): float formatting of random values. Its `dayFactor` is 1.2 for hours 9 to 17 and 0.8 otherwise. Only the `toFixed(1)` text it hands to the badge is modelled.
- Locale formatting (`toLocaleTimeString`, `toLocaleDateString`, `toLocaleString`): each is an uninterpreted function in `Time.Locale`.
- Metrics.ToFixed1: `toFixed` switches to exponent notation ("1e+21") from 10^21 in magnitude, and the model always writes fixed-point digits. No change the dashboard computes comes near that size.
- Exact IEEE-754 behaviour: values are reals. This includes the trend multiplication, `0.75 + 0.20`, and `Math.floor(diff / 60000)` on very large differences.
- `Math.sin`: passed in as a function, because the trend properties do not depend on it.
- `toLowerCase` beyond ASCII: `Text.Lower` maps only A to Z.
- Search.LongerQueryNarrows: holds only for ASCII lower-casing. JavaScript's `toLowerCase` applies the Greek final-sigma rule: "AΣB" lower-cases to "aσb" but "AΣ" to "aς". So on the row "AΣB", the query "AΣB" shows the row while the shorter "AΣ" hides it.
- Trend.GenerateRealisticTrend: `points` is an integer. For an unlisted time range the source passes `undefined` instead; `i < undefined` is false, so that call runs no iteration, exactly as `points = 0` does here.
- MockData.GenerateMockData: takes one clock reading for all labels. The source calls `Date.now()` again for each label.
- Transactions.GenerateMockTransactions: takes one clock reading for all rows, while the source reads the clock per row. It sorts by each row's instant instead of re-parsing the locale date text with `new Date(...)`, which assumes the date text parses back to its day.
- Sorting.SortByKeyDesc: stability is not stated. The JavaScript sort keeps rows with equal dates in generation order; the insertion sort does too, but nothing proves it.

## Findings

| source | as written | input that shows it | evidently intended | confidence | as-written member | corrected member |
|---|---|---|---|---|---|---|
| script.js:163-164 | `parseFloat(change) >= 0` picks the "+" prefix and the positive class, and `parseFloat("-0.0")` is -0, which is `>= 0` | a change in (-0.05, 0), for example -0.04: `toFixed(1)` gives "-0.0", so the badge reads "+-0.0%" with class positive | one sign per badge, matching the sign the text already carries | low: not executed; the dashboard's own trend constants keep every change at least 1.5 away from zero | Metrics.NegativeZeroShowsTwoSigns | Metrics.SignedBadgeHasOneSign |

=== FILE: alerts.dfy ===
/** `loadAlerts`: a fixed pool of six alerts stamped relative to one clock
    reading, shown newest first with a relative time each. */
module Alerts {

  import opened Text
  import opened Time
  import opened Sorting
  import opened RelativeTime

  datatype AlertType = Warning | Info | Error

  datatype Alert = Alert(kind: AlertType, message: string, timestamp: int)

  function TimestampOf(a: Alert): int {
    a.timestamp
  }

  /** The pool in the order the source lists it, stamped 12, 45, 8, 25, 180
      and 6 minutes before `currentTime`. */
  function Pool(currentTime: int): (p: seq<Alert>)
    ensures |p| == 6
    ensures forall i :: 0 <= i < 6 ==>
      p[i].timestamp < currentTime && (currentTime - p[i].timestamp) % MinuteMs == 0
    ensures p[4].timestamp == currentTime - 3 * HourMs
  {
    [ Alert(Warning, "API response time increased by 15% in the last hour",
            currentTime - 12 * MinuteMs),
      Alert(Info, "New dashboard feature deployed successfully - Chart export functionality",
            currentTime - 45 * MinuteMs),
      Alert(Error, "Database connection timeout in EU-West cluster - Auto-recovering",
            currentTime - 8 * MinuteMs),
      Alert(Warning, "Unusual traffic spike detected from Asia region (+180%)",
            currentTime - 25 * MinuteMs),
      Alert(Info, "Scheduled backup completed for transaction database",
            currentTime - 3 * 60 * MinuteMs),
      Alert(Warning, "Memory usage at 85% on primary analytics server",
            currentTime - 6 * MinuteMs) ]
  }

  /** The alerts in display order: the pool sorted by timestamp, newest
      first. */
  function LoadAlerts(currentTime: int): (r: seq<Alert>)
    ensures |r| == 6
    ensures SortedDesc(r, TimestampOf)
    ensures multiset(r) == multiset(Pool(currentTime))
  {
    SortByKeyDesc(Pool(currentTime), TimestampOf)
  }

  /** Sorting six alerts whose timestamps are ordered 5, 2, 0, 3, 1, 4 from
      newest to oldest yields exactly that order. */
  lemma {:induction false} OrderOfSix(p: seq<Alert>)
    requires |p| == 6
    requires p[5].timestamp > p[2].timestamp > p[0].timestamp
      > p[3].timestamp > p[1].timestamp > p[4].timestamp
    ensures SortByKeyDesc(p, TimestampOf) == [p[5], p[2], p[0], p[3], p[1], p[4]]
  {
    var t := [p[5], p[2], p[0], p[3], p[1], p[4]];
    var r := SortByKeyDesc(p, TimestampOf);
    SortedTimestampsDistinct(p, r);
    SameElements(p, r, t);
    SortedOrderUnique(r, t, TimestampOf);
  }

  lemma {:induction false} SortedTimestampsDistinct(p: seq<Alert>, r: seq<Alert>)
    requires |p| == 6
    requires p[5].timestamp > p[2].timestamp > p[0].timestamp
      > p[3].timestamp > p[1].timestamp > p[4].timestamp
    requires multiset(r) == multiset(p)
    ensures Injective(r, TimestampOf)
  {
    assert Injective(p, TimestampOf);
    PermutationKeepsInjective(r, p, TimestampOf);
  }

  lemma {:induction false} SameElements(p: seq<Alert>, r: seq<Alert>, t: seq<Alert>)
    requires |p| == 6
    requires multiset(r) == multiset(p)
    requires t == [p[5], p[2], p[0], p[3], p[1], p[4]]
    ensures forall x :: x in r <==> x in t
  {
    forall x ensures x in r <==> x in t {
      assert x in r <==> x in multiset(p);
      assert x in p <==> x == p[0] || x == p[1] || x == p[2] || x == p[3] || x == p[4] || x == p[5];
    }
  }

  /** The display order is fixed whatever the clock reads: memory (6 min),
      database (8), API (12), traffic (25), deployment (45), backup (3 h). */
  lemma AlertOrder(currentTime: int)
    ensures var p := Pool(currentTime);
      LoadAlerts(currentTime) == [p[5], p[2], p[0], p[3], p[1], p[4]]
  {
    OrderOfSix(Pool(currentTime));
  }

  /** The relative-time texts of the feed, formatted at clock reading
      `later`. */
  function Stamps(alerts: seq<Alert>, later: int, locale: Locale): (r: seq<string>)
    ensures |r| == |alerts|
    ensures forall i :: 0 <= i < |alerts| ==>
      r[i] == FormatTimestamp(later, alerts[i].timestamp, locale)
  {
    seq(|alerts|, i requires 0 <= i < |alerts| => FormatTimestamp(later, alerts[i].timestamp, locale))
  }

  /** Formatting happens a little after the pool is stamped; as long as it
      is within a minute, the feed reads exactly as below. */
  lemma FeedStamps(currentTime: int, later: int, locale: Locale)
    requires currentTime <= later < currentTime + MinuteMs
    ensures Stamps(LoadAlerts(currentTime), later, locale)
      == ["6 min ago", "8 min ago", "12 min ago", "25 min ago", "45 min ago", "3h ago"]
  {
    AlertOrder(currentTime);
    var p := Pool(currentTime);
    StampsOfSix([p[5], p[2], p[0], p[3], p[1], p[4]], currentTime, later, locale);
  }

  lemma {:induction false} StampsOfSix(a: seq<Alert>, currentTime: int, later: int, locale: Locale)
    requires currentTime <= later < currentTime + MinuteMs
    requires |a| == 6
    requires a[0].timestamp == currentTime - 6 * MinuteMs
    requires a[1].timestamp == currentTime - 8 * MinuteMs
    requires a[2].timestamp == currentTime - 12 * MinuteMs
    requires a[3].timestamp == currentTime - 25 * MinuteMs
    requires a[4].timestamp == currentTime - 45 * MinuteMs
    requires a[5].timestamp == currentTime - 180 * MinuteMs
    ensures Stamps(a, later, locale)
      == ["6 min ago", "8 min ago", "12 min ago", "25 min ago", "45 min ago", "3h ago"]
  {
    StampAt(a, 0, currentTime, later, 6, locale);
    StampAt(a, 1, currentTime, later, 8, locale);
    StampAt(a, 2, currentTime, later, 12, locale);
    StampAt(a, 3, currentTime, later, 25, locale);
    StampAt(a, 4, currentTime, later, 45, locale);
    StampAt(a, 5, currentTime, later, 180, locale);
    SixTexts(Stamps(a, later, locale));
  }

  /** The six texts, once their numbers are rendered. */
  lemma SixTexts(r: seq<string>)
    requires |r| == 6
    requires r[0] == NatToString(6) + " min ago" && r[1] == NatToString(8) + " min ago"
    requires r[2] == NatToString(12) + " min ago" && r[3] == NatToString(25) + " min ago"
    requires r[4] == NatToString(45) + " min ago" && r[5] == NatToString(180 / 60) + "h ago"
    ensures r == ["6 min ago", "8 min ago", "12 min ago", "25 min ago", "45 min ago", "3h ago"]
  {
    Numerals();
    assert 180 / 60 == 3;
    assert r[0] == "6 min ago" && r[1] == "8 min ago" && r[2] == "12 min ago";
    assert r[3] == "25 min ago" && r[4] == "45 min ago" && r[5] == "3h ago";
  }

  lemma Numerals()
    ensures NatToString(6) == "6" && NatToString(8) == "8" && NatToString(12) == "12"
    ensures NatToString(25) == "25" && NatToString(45) == "45" && NatToString(3) == "3"
  {
  }

  lemma StampAt(a: seq<Alert>, i: nat, currentTime: int, later: int, k: nat, locale: Locale)
    requires currentTime <= later < currentTime + MinuteMs
    requires i < |a| && a[i].timestamp == currentTime - k * MinuteMs
    requires 1 <= k < 24 * 60
    ensures k < 60 ==> Stamps(a, later, locale)[i] == NatToString(k) + " min ago"
    ensures 60 <= k ==> Stamps(a, later, locale)[i] == NatToString(k / 60) + "h ago"
  {
    MinutesOffsetText(currentTime, later, k, locale);
  }

}

=== FILE: draws.dfy ===
/** `Math.random()` as an oracle: the caller supplies the sequence of draws,
    each in `[0, 1)` as the runtime promises. */
module Draws {

  predicate UnitDraws(d: seq<real>) {
    forall k :: 0 <= k < |d| ==> 0.0 <= d[k] < 1.0
  }

  /** `Math.floor(Math.random() * n)`: a uniform index below `n`. */
  function Pick(r: real, n: nat): (k: nat)
    requires 0.0 <= r < 1.0 && n > 0
    ensures k < n
    ensures k as real <= r * n as real < (k + 1) as real
  {
    assert (1.0 - r) * n as real > 0.0;
    (r * n as real).Floor
  }
}

=== FILE: metrics.dfy ===
/** The headline-metric badges and the performance doughnut: the sign
    logic of `updateMetricChange` and the four bounded segment values of
    `updateCharts`. */
module Metrics {

  import opened Options
  import opened Text
  import opened Draws

  /** A percent change as `Number.prototype.toFixed(1)` renders it: a minus
      sign or none, and a magnitude in tenths. */
  datatype Fixed1 = Fixed1(negative: bool, tenths: nat)

  /** `x.toFixed(1)`: the sign is "-" exactly when `x < 0`, so a small
      negative change such as -0.04 keeps its sign while rounding to zero
      tenths; the magnitude is the nearest number of tenths, ties upward. */
  function ToFixed1(x: real): (f: Fixed1)
    ensures f.negative <==> x < 0.0
    ensures var m := if x < 0.0 then -x else x;
      f.tenths as real - 0.5 <= m * 10.0 < f.tenths as real + 0.5
  {
    var m := if x < 0.0 then -x else x;
    Fixed1(x < 0.0, (m * 10.0 + 0.5).Floor)
  }

  /** The characters `toFixed(1)` produces: with the sign and the point
      taken out, the digits read back as the number of tenths. */
  function Fixed1Text(f: Fixed1): (t: string)
    ensures |t| >= 3 && t[|t| - 2] == '.' && IsDigit(t[|t| - 1])
    ensures t[0] == '-' <==> f.negative
    ensures IsDigit(t[0]) <==> !f.negative
    ensures var digits := if f.negative then t[1..] else t;
      |digits| >= 3 && digits[|digits| - 2] == '.'
      && ParseNat(digits[..|digits| - 2] + digits[|digits| - 1..]) == Some(f.tenths)
  {
    var whole := NatToString(f.tenths / 10);
    var last := [DigitChar(f.tenths % 10)];
    var t := (if f.negative then "-" else "") + whole + "." + last;
    DigitsValueOfNatToString(f.tenths / 10);
    assert (whole + last)[..|whole + last| - 1] == whole;
    assert DigitsValue(whole + last) == f.tenths;
    var digits := if f.negative then t[1..] else t;
    assert digits == whole + "." + last;
    assert digits[..|digits| - 2] + digits[|digits| - 1..] == whole + last;
    t
  }

  /** Reads a one-decimal text back: an optional "-", digits, a point and
      one digit. */
  function ParseFixed1(t: string): (r: Option<Fixed1>)
    ensures r.Some? ==> (r.value.negative <==> |t| > 0 && t[0] == '-')
    ensures r.Some? ==> |t| >= 3 && t[|t| - 2] == '.' && IsDigit(t[|t| - 1])
  {
    var negative := |t| > 0 && t[0] == '-';
    var digits := if negative then t[1..] else t;
    if |digits| < 3 || digits[|digits| - 2] != '.' then None
    else match ParseNat(digits[..|digits| - 2] + digits[|digits| - 1..])
      case None => None
      case Some(n) => Some(Fixed1(negative, n))
  }

  /** The text `toFixed(1)` shows reads back to the sign and tenths it was
      made from, so the badge shows the same number whose sign picks its
      class. */
  lemma Fixed1RoundTrip(f: Fixed1)
    ensures ParseFixed1(Fixed1Text(f)) == Some(f)
  {
  }

  /** `parseFloat` of that text. A real has no negative zero: "-0.0" reads
      as 0, matching JavaScript, where `parseFloat("-0.0")` is -0 and
      `-0 >= 0` holds. */
  function ParsedValue(f: Fixed1): (v: real)
    ensures v == 0.0 <==> f.tenths == 0
    ensures v >= 0.0 <==> !f.negative || f.tenths == 0
    ensures (if v < 0.0 then -v else v) * 10.0 == f.tenths as real
  {
    var magnitude := f.tenths as real / 10.0;
    if f.negative then -magnitude else magnitude
  }

  const PositiveClass: string := "metric-change positive"
  const NegativeClass: string := "metric-change negative"

  /** What a change badge shows: its text and its CSS class. */
  datatype Badge = Badge(text: string, className: string)

  /** `updateMetricChange(elementId, change)` as written: the badge is
      positive, and its text gains a "+", when the parsed change is at least
      zero. */
  function UpdateMetricChange(change: Fixed1): (b: Badge)
    ensures b.className == PositiveClass <==> ParsedValue(change) >= 0.0
    ensures b.className == NegativeClass <==> ParsedValue(change) < 0.0
    ensures |b.text| >= 4 && b.text[|b.text| - 1] == '%'
    ensures b.text[0] == '+' <==> b.className == PositiveClass
  {
    var isPositive := ParsedValue(change) >= 0.0;
    Badge((if isPositive then "+" else "") + Fixed1Text(change) + "%",
          if isPositive then PositiveClass else NegativeClass)
  }

  /** The text after the optional "+" is the change itself followed by "%". */
  lemma UpdateMetricChangeText(change: Fixed1)
    ensures var b := UpdateMetricChange(change);
      b.text == (if b.className == PositiveClass then "+" else "") + Fixed1Text(change) + "%"
  {
  }

  /** A change that `toFixed(1)` rounds to "-0.0" (any `x` in (-0.05, 0))
      is displayed as "+-0.0%" in a positive badge: two signs at once. */
  lemma NegativeZeroShowsTwoSigns()
    ensures ToFixed1(-0.04) == Fixed1(true, 0)
    ensures UpdateMetricChange(ToFixed1(-0.04)) == Badge("+-0.0%", PositiveClass)
  {
    assert NatToString(0) == "0";
    assert Fixed1Text(Fixed1(true, 0)) == "-0.0";
  }

  /** The evident intent: the badge's sign follows the sign the text
      already carries, so "-0.0" stays a negative badge without a "+". */
  function UpdateMetricChangeSigned(change: Fixed1): (b: Badge)
    ensures b.className == PositiveClass <==> !change.negative
    ensures b.className == NegativeClass <==> change.negative
    ensures |b.text| >= 4 && b.text[|b.text| - 1] == '%'
  {
    var isPositive := !change.negative;
    Badge((if isPositive then "+" else "") + Fixed1Text(change) + "%",
          if isPositive then PositiveClass else NegativeClass)
  }

  /** The corrected badge shows exactly one sign, in its first character,
      and its class agrees with that sign; it differs from the code as
      written only on a negative zero. */
  lemma SignedBadgeHasOneSign(change: Fixed1)
    ensures var b := UpdateMetricChangeSigned(change);
      (b.text[0] == '+' <==> b.className == PositiveClass)
      && (b.text[0] == '-' <==> b.className == NegativeClass)
      && (b.text[0] == '+' || b.text[0] == '-')
      && b.text[1] != '+' && b.text[1] != '-'
    ensures UpdateMetricChangeSigned(change) != UpdateMetricChange(change)
      <==> change.negative && change.tenths == 0
  {
    var digits := NatToString(change.tenths / 10);
    var b := UpdateMetricChangeSigned(change);
    assert IsDigit(digits[0]);
    if change.negative {
      assert b.text[1] == digits[0];
    } else {
      assert b.text[1] == digits[0];
    }
    if !change.negative || change.tenths != 0 {
      assert (ParsedValue(change) >= 0.0) == !change.negative;
    } else {
      assert UpdateMetricChange(change).className == PositiveClass;
    }
  }

  /** The performance doughnut's four segments (excellent, good, average,
      poor) from four draws. */
  function PerformanceData(d: seq<real>): (r: seq<int>)
    requires |d| == 4 && UnitDraws(d)
    ensures |r| == 4
    ensures (r[0] - 35) as real <= d[0] * 20.0 < (r[0] - 34) as real
    ensures (r[1] - 25) as real <= d[1] * 15.0 < (r[1] - 24) as real
    ensures (r[2] - 15) as real <= d[2] * 10.0 < (r[2] - 14) as real
    ensures (r[3] - 5) as real <= d[3] * 10.0 < (r[3] - 4) as real
    ensures 35 <= r[0] <= 54 && 25 <= r[1] <= 39 && 15 <= r[2] <= 24 && 5 <= r[3] <= 14
    ensures r[1] > r[2] > r[3]
    ensures 80 <= r[0] + r[1] + r[2] + r[3] <= 131
  {
    [Pick(d[0], 20) + 35, Pick(d[1], 15) + 25, Pick(d[2], 10) + 15, Pick(d[3], 10) + 5]
  }
}

=== FILE: mock_data.dfy ===
/** `generateMockData`: the selected time range fixes how many points every
    chart series has and what its x-axis labels are; three trend series are
    then drawn over that many points. */
module MockData {

  import opened Options
  import opened Text
  import opened Time
  import opened Trend

  /** The four values of the time-range selector. */
  datatype TimeRange = LastHour | LastDay | LastWeek | LastMonth

  function ParseTimeRange(s: string): (r: Option<TimeRange>)
    ensures r == Some(LastHour) <==> s == "1h"
    ensures r == Some(LastDay) <==> s == "24h"
    ensures r == Some(LastWeek) <==> s == "7d"
    ensures r == Some(LastMonth) <==> s == "30d"
  {
    if s == "1h" then Some(LastHour)
    else if s == "24h" then Some(LastDay)
    else if s == "7d" then Some(LastWeek)
    else if s == "30d" then Some(LastMonth)
    else None
  }

  function Points(r: TimeRange): nat {
    match r
    case LastHour => 12
    case LastDay => 24
    case LastWeek => 7
    case LastMonth => 30
  }

  /** Points per series for the selector's raw value. A value the `switch`
      does not list leaves the count undefined, and the trend loop then runs
      no iteration: zero points. */
  function PointCount(timeRange: string): (n: nat)
    ensures timeRange == "1h" ==> n == 12
    ensures timeRange == "24h" ==> n == 24
    ensures timeRange == "7d" ==> n == 7
    ensures timeRange == "30d" ==> n == 30
    ensures !(timeRange in {"1h", "24h", "7d", "30d"}) ==> n == 0
  {
    match ParseTimeRange(timeRange)
    case None => 0
    case Some(r) => Points(r)
  }

  const Weekdays: seq<string> := ["Mon", "Tue", "Wed", "Thu", "Fri", "Sat", "Sun"]

  /** "Day N" for the N-th day of the month view. */
  function DayLabel(n: nat): string {
    "Day " + NatToString(n)
  }

  /** Inverse of `DayLabel`. */
  function ParseDayLabel(s: string): Option<nat> {
    if |s| >= 4 && s[..4] == "Day " then ParseNat(s[4..]) else None
  }

  lemma ParseDayLabelRoundTrip(n: nat)
    ensures ParseDayLabel(DayLabel(n)) == Some(n)
  {
    assert DayLabel(n)[4..] == NatToString(n);
    ParseNatToString(n);
  }

  /** The x-axis labels for a time range. */
  function Labels(r: TimeRange, now: int, locale: Locale): (labels: seq<string>)
    ensures |labels| == Points(r)
  {
    match r
    case LastHour => seq(12, i => locale.hourMinute(now - (12 - i - 1) * 5 * MinuteMs))
    case LastDay => seq(24, i => locale.hour(now - (24 - i - 1) * HourMs) + ":00")
    case LastWeek => Weekdays
    case LastMonth => seq(30, i requires 0 <= i => DayLabel(i + 1))
  }

  /** What each view's labels are: the hour view shows the locale time of
      the twelve instants five minutes apart that end at `now`, the day view
      the locale hour, suffixed ":00", of the 24 instants one hour apart
      that end at `now`, the week view the seven weekday names, and the
      month view labels that parse back to the day numbers 1 to 30. */
  lemma LabelsContent(r: TimeRange, now: int, locale: Locale)
    ensures r == LastHour ==> forall i :: 0 <= i < 12 ==>
      Labels(r, now, locale)[i] == locale.hourMinute(now - (11 - i) * 5 * MinuteMs)
    ensures r == LastDay ==> forall i :: 0 <= i < 24 ==>
      Labels(r, now, locale)[i] == locale.hour(now - (23 - i) * HourMs) + ":00"
    ensures r == LastWeek ==> Labels(r, now, locale) == ["Mon", "Tue", "Wed", "Thu", "Fri", "Sat", "Sun"]
    ensures r == LastMonth ==> forall i :: 0 <= i < 30 ==>
      ParseDayLabel(Labels(r, now, locale)[i]) == Some(i + 1)
  {
    if r == LastMonth {
      forall i | 0 <= i < 30 ensures ParseDayLabel(Labels(r, now, locale)[i]) == Some(i + 1) {
        ParseDayLabelRoundTrip(i + 1);
      }
    }
  }

  /** No two x-axis labels of the week or month view coincide. */
  lemma CalendarLabelsDistinct(r: TimeRange, now: int, locale: Locale)
    requires r == LastWeek || r == LastMonth
    ensures forall i, j :: 0 <= i < j < Points(r) ==>
      Labels(r, now, locale)[i] != Labels(r, now, locale)[j]
  {
    LabelsContent(r, now, locale);
  }

  /** The chart data of one refresh. `timeLabels` is `None` when the time
      range is not one of the four the `switch` lists. */
  datatype MockSeries = MockSeries(
    revenue: seq<int>,
    users: seq<int>,
    performance: seq<int>,
    timeLabels: Option<seq<string>>)

  /** `generateMockData()`. The three series consume the draws in turn:
      revenue the first `n`, users the next `n`, performance the last `n`. */
  method GenerateMockData(timeRange: string, now: int, locale: Locale, draws: seq<real>,
                          sin: real -> real)
    returns (m: MockSeries)
    requires |draws| >= 3 * PointCount(timeRange)
    ensures m.timeLabels.Some? <==> timeRange in {"1h", "24h", "7d", "30d"}
    ensures ParseTimeRange(timeRange).Some? ==>
      m.timeLabels == Some(Labels(ParseTimeRange(timeRange).value, now, locale))
    ensures timeRange == "1h" ==> |m.revenue| == 12
    ensures timeRange == "24h" ==> |m.revenue| == 24
    ensures timeRange == "7d" ==> |m.revenue| == 7
    ensures timeRange == "30d" ==> |m.revenue| == 30
    ensures |m.users| == |m.revenue| && |m.performance| == |m.revenue|
    ensures m.timeLabels.Some? ==> |m.timeLabels.value| == |m.revenue|
    ensures m.timeLabels.None? ==> m.revenue == [] && m.users == [] && m.performance == []
    ensures timeRange == "7d" ==> m.timeLabels == Some(["Mon", "Tue", "Wed", "Thu", "Fri", "Sat", "Sun"])
    ensures timeRange == "30d" ==> forall i :: 0 <= i < 30 ==>
      m.timeLabels.value[i] == "Day " + NatToString(i + 1)
    ensures forall i :: 0 <= i < |m.revenue| ==> 25000 <= m.revenue[i] <= 45000
    ensures forall i :: 0 <= i < |m.users| ==> 800 <= m.users[i] <= 1500
    ensures forall i :: 0 <= i < |m.performance| ==> 65 <= m.performance[i] <= 95
    ensures var n := PointCount(timeRange);
      forall i :: 0 <= i < |m.revenue| ==>
        m.revenue[i] == Running(Revenue, n, 25000, 45000, draws[..n], sin, i + 1).Floor
    ensures var n := PointCount(timeRange);
      forall i :: 0 <= i < |m.users| ==>
        m.users[i] == Running(Users, n, 800, 1500, draws[n..2 * n], sin, i + 1).Floor
    ensures var n := PointCount(timeRange);
      forall i :: 0 <= i < |m.performance| ==>
        m.performance[i] == Running(Performance, n, 65, 95, draws[2 * n..3 * n], sin, i + 1).Floor
  {
    var n := PointCount(timeRange);
    var timeLabels: Option<seq<string>> := None;
    match ParseTimeRange(timeRange) {
      case Some(r) => timeLabels := Some(Labels(r, now, locale));
      case None =>
    }
    var revenue := GenerateRealisticTrend(n, 25000, 45000, ShapeOf("revenue"), draws[..n], sin);
    var users := GenerateRealisticTrend(n, 800, 1500, ShapeOf("users"), draws[n..2 * n], sin);
    var performance := GenerateRealisticTrend(n, 65, 95, ShapeOf("performance"), draws[2 * n..3 * n], sin);
    m := MockSeries(revenue, users, performance, timeLabels);
  }
}

=== FILE: options.dfy ===
/** The optional value used wherever the dashboard may produce "nothing"
    (an unrecognised time range, a label that does not parse). */
module Options {

  datatype Option<+T> = None | Some(value: T)
}

=== FILE: relative_time.dfy ===
/** `formatTimestamp`: how long ago an instant was, bucketed into
    "Just now", whole minutes, whole hours, or the locale date. The
    difference is in integer milliseconds and both divisors are positive,
    so JavaScript's `Math.floor(diff / d)` is Dafny's `diff / d`. */
module RelativeTime {

  import opened Options
  import opened Text
  import opened Time

  /** The four outcomes; exactly one applies to any difference. */
  datatype Age = JustNow | MinutesAgo(minutes: nat) | HoursAgo(hours: nat) | OnDate

  /** The bucket for a difference of `diff` milliseconds (`now - timestamp`),
      stated as ranges of `diff`: less than a minute (including a timestamp
      in the future) is "just now", under an hour counts whole minutes, under
      a day counts whole hours, and anything older shows its date. */
  function Classify(diff: int): (a: Age)
    ensures a.JustNow? <==> diff < MinuteMs
    ensures a.MinutesAgo? <==> MinuteMs <= diff < HourMs
    ensures a.HoursAgo? <==> HourMs <= diff < DayMs
    ensures a.OnDate? <==> DayMs <= diff
    ensures a.MinutesAgo? ==>
      1 <= a.minutes < 60 && a.minutes * MinuteMs <= diff < (a.minutes + 1) * MinuteMs
    ensures a.HoursAgo? ==>
      1 <= a.hours < 24 && a.hours * HourMs <= diff < (a.hours + 1) * HourMs
  {
    var minutes := diff / MinuteMs;
    var hours := diff / HourMs;
    if minutes < 1 then JustNow
    else if minutes < 60 then MinutesAgo(minutes)
    else if hours < 24 then HoursAgo(hours)
    else OnDate
  }

  const MinSuffix: string := " min ago"
  const HourSuffix: string := "h ago"

  /** The text shown for an age; `dateText` is the locale date used for
      anything a day old or more. */
  function Render(a: Age, dateText: string): string {
    match a
    case JustNow => "Just now"
    case MinutesAgo(m) => NatToString(m) + MinSuffix
    case HoursAgo(h) => NatToString(h) + HourSuffix
    case OnDate => dateText
  }

  /** `formatTimestamp(timestamp)` evaluated at clock reading `now`. */
  function FormatTimestamp(now: int, timestamp: int, locale: Locale): (r: string)
    ensures now - timestamp < MinuteMs ==> r == "Just now"
    ensures MinuteMs <= now - timestamp < HourMs ==>
      r == NatToString((now - timestamp) / MinuteMs) + " min ago"
    ensures HourMs <= now - timestamp < DayMs ==>
      r == NatToString((now - timestamp) / HourMs) + "h ago"
    ensures DayMs <= now - timestamp ==> r == locale.date(timestamp)
  {
    Render(Classify(now - timestamp), locale.date(timestamp))
  }

  /** Reads a relative-time text back into its age; `None` for anything
      that is not one of the three relative forms. */
  function ParseRelative(s: string): Option<Age> {
    if s == "Just now" then Some(JustNow)
    else if |s| > |MinSuffix| && s[|s| - |MinSuffix|..] == MinSuffix then
      match ParseNat(s[..|s| - |MinSuffix|])
      case Some(m) => Some(MinutesAgo(m))
      case None => None
    else if |s| > |HourSuffix| && s[|s| - |HourSuffix|..] == HourSuffix then
      match ParseNat(s[..|s| - |HourSuffix|])
      case Some(h) => Some(HoursAgo(h))
      case None => None
    else None
  }

  /** The relative texts determine their age: rendering and reading back
      gives the age again, so distinct ages never share a text. */
  lemma ParseRender(a: Age, dateText: string)
    requires !a.OnDate?
    ensures ParseRelative(Render(a, dateText)) == Some(a)
  {
    var s := Render(a, dateText);
    match a
    case JustNow =>
    case MinutesAgo(m) =>
      var digits := NatToString(m);
      assert s[0] == digits[0] && IsDigit(s[0]);
      assert s[|s| - |MinSuffix|..] == MinSuffix;
      assert s[..|s| - |MinSuffix|] == digits;
      ParseNatToString(m);
    case HoursAgo(h) =>
      var digits := NatToString(h);
      assert s[0] == digits[0] && IsDigit(s[0]);
      if |s| > |MinSuffix| {
        assert s[|s| - 5] == 'h';
        assert s[|s| - |MinSuffix|..][3] == s[|s| - 5];
      }
      assert s[|s| - |HourSuffix|..] == HourSuffix;
      assert s[..|s| - |HourSuffix|] == digits;
      ParseNatToString(h);
  }

  /** The alert feed computes each alert's instant as `currentTime - k`
      minutes and formats it at a later clock reading: as long as that
      reading is less than a minute later, the text shows exactly `k`
      minutes (or `k / 60` hours once `k` reaches an hour). */
  lemma MinutesOffsetText(currentTime: int, later: int, k: nat, locale: Locale)
    requires currentTime <= later < currentTime + MinuteMs
    requires 1 <= k < 24 * 60
    ensures k < 60 ==>
      FormatTimestamp(later, currentTime - k * MinuteMs, locale) == NatToString(k) + " min ago"
    ensures 60 <= k ==>
      FormatTimestamp(later, currentTime - k * MinuteMs, locale) == NatToString(k / 60) + "h ago"
  {
    var diff := later - (currentTime - k * MinuteMs);
    assert k * MinuteMs <= diff < (k + 1) * MinuteMs;
    var a := Classify(diff);
    if k < 60 {
      assert a.MinutesAgo?;
      assert a.minutes == k;
    } else {
      assert a.HoursAgo?;
      assert a.hours == k / 60;
    }
  }
}

=== FILE: search.dfy ===
/** `searchTransactions`: a presentation filter that hides every table row
    whose text does not contain the query, ignoring letter case. */
module Search {

  import opened Text

  /** A row stays shown exactly when the query, lower-cased, occurs in the
      row's lower-cased text. */
  function RowVisible(rowText: string, query: string): (visible: bool)
    ensures visible <==> exists i :: OccursAt(Lower(rowText), Lower(query), i)
  {
    Contains(Lower(rowText), Lower(query))
  }

  /** `row.style.display` after a search: "" shows the row, "none" hides
      it. Nothing but the display style changes. */
  function SearchTransactions(rows: seq<string>, query: string): (display: seq<string>)
    ensures |display| == |rows|
    ensures forall i :: 0 <= i < |rows| ==>
      (display[i] == "" <==> RowVisible(rows[i], query))
      && (display[i] == "none" <==> !RowVisible(rows[i], query))
  {
    seq(|rows|, i requires 0 <= i < |rows| => if RowVisible(rows[i], query) then "" else "none")
  }

  /** An empty query shows every row. */
  lemma EmptyQueryShowsAll(rowText: string)
    ensures RowVisible(rowText, "")
  {
    assert OccursAt(Lower(rowText), Lower(""), 0);
  }

  /** Queries that differ only in ASCII letter case select the same rows. */
  lemma CaseInsensitive(rowText: string, q1: string, q2: string)
    requires Lower(q1) == Lower(q2)
    ensures RowVisible(rowText, q1) == RowVisible(rowText, q2)
  {
  }

  /** Typing one more character can only hide rows, never reveal one. */
  lemma LongerQueryNarrows(rowText: string, query: string, c: char)
    ensures RowVisible(rowText, query + [c]) ==> RowVisible(rowText, query)
  {
    if RowVisible(rowText, query + [c]) {
      var text := Lower(rowText);
      var i :| OccursAt(text, Lower(query + [c]), i);
      assert Lower(query + [c]) == Lower(query) + [LowerChar(c)];
      assert text[i..i + |query|] == text[i..i + |query| + 1][..|query|];
      assert OccursAt(text, Lower(query), i);
    }
  }
}

=== FILE: sorting.dfy ===
/** `Array.prototype.sort` with a descending numeric comparator
    (`(a, b) => key(b) - key(a)`), as the dashboard uses it for transactions
    and alerts: an insertion sort on sequences, with the permutation and
    ordering facts the callers rely on. */
module Sorting {

  /** Keys never increase from left to right. */
  predicate SortedDesc<T>(s: seq<T>, key: T -> int) {
    forall i, j :: 0 <= i < j < |s| ==> key(s[i]) >= key(s[j])
  }

  /** No two positions have the same image under `f`: distinct ids, or
      distinct sort keys. */
  ghost predicate Injective<T, K>(s: seq<T>, f: T -> K) {
    forall i, j :: 0 <= i < j < |s| ==> f(s[i]) != f(s[j])
  }

  /** Places `x` after every element whose key is at least its own. */
  function InsertDesc<T>(x: T, s: seq<T>, key: T -> int): (r: seq<T>)
    ensures multiset(r) == multiset(s) + multiset{x}
    ensures |r| == |s| + 1
    decreases |s|
  {
    if s == [] || key(x) > key(s[0]) then [x] + s
    else
      assert s == [s[0]] + s[1..];
      [s[0]] + InsertDesc(x, s[1..], key)
  }

  /** Inserting into a sorted list keeps it sorted. */
  lemma {:induction false} InsertDescSorted<T>(x: T, s: seq<T>, key: T -> int)
    requires SortedDesc(s, key)
    ensures SortedDesc(InsertDesc(x, s, key), key)
    decreases |s|
  {
    if s != [] && key(x) <= key(s[0]) {
      var rest := InsertDesc(x, s[1..], key);
      InsertDescSorted(x, s[1..], key);
      forall k | 0 <= k < |rest| ensures key(s[0]) >= key(rest[k]) {
        assert rest[k] in multiset(rest);
        if rest[k] != x {
          assert rest[k] in multiset(s[1..]);
          var m :| 0 <= m < |s[1..]| && s[1..][m] == rest[k];
          assert s[m + 1] == rest[k];
        }
      }
      var r := [s[0]] + rest;
      forall i, j | 0 <= i < j < |r| ensures key(r[i]) >= key(r[j]) {
        assert r[j] == rest[j - 1];
        if i > 0 {
          assert r[i] == rest[i - 1];
        }
      }
    }
  }

  function SortByKeyDesc<T>(s: seq<T>, key: T -> int): (r: seq<T>)
    ensures SortedDesc(r, key)
    ensures multiset(r) == multiset(s)
    ensures |r| == |s|
    decreases |s|
  {
    if s == [] then []
    else
      var init := s[..|s| - 1];
      assert s == init + [s[|s| - 1]];
      InsertDescSorted(s[|s| - 1], SortByKeyDesc(init, key), key);
      InsertDesc(s[|s| - 1], SortByKeyDesc(init, key), key)
  }

  lemma {:induction false} CountAtMostOne<T, K>(s: seq<T>, id: T -> K, x: T)
    requires Injective(s, id)
    ensures multiset(s)[x] <= 1
    decreases |s|
  {
    if s != [] {
      var init := s[..|s| - 1];
      assert s == init + [s[|s| - 1]];
      assert Injective(init, id);
      CountAtMostOne(init, id, x);
      if x == s[|s| - 1] {
        forall k | 0 <= k < |init| ensures init[k] != x {
          assert id(s[k]) != id(s[|s| - 1]);
        }
        assert x !in init;
      }
    }
  }

  lemma CountAtLeastTwo<T>(s: seq<T>, i: nat, j: nat)
    requires i < j < |s| && s[i] == s[j]
    ensures multiset(s)[s[i]] >= 2
  {
    assert s == s[..j] + s[j..];
    assert s[..j][i] == s[i];
    assert s[j..][0] == s[i];
  }

  /** Reordering a sequence cannot make two images (ids, keys) collide. */
  lemma PermutationKeepsInjective<T, K>(a: seq<T>, b: seq<T>, id: T -> K)
    requires multiset(a) == multiset(b)
    requires Injective(b, id)
    ensures Injective(a, id)
  {
    forall i, j | 0 <= i < j < |a| ensures id(a[i]) != id(a[j]) {
      if id(a[i]) == id(a[j]) {
        assert a[i] in multiset(b) && a[j] in multiset(b);
        var k1 :| 0 <= k1 < |b| && b[k1] == a[i];
        var k2 :| 0 <= k2 < |b| && b[k2] == a[j];
        assert k1 == k2;
        CountAtLeastTwo(a, i, j);
        CountAtMostOne(b, id, a[i]);
        assert false;
      }
    }
  }

  /** A sorted order is unique once keys are distinct: two sorted
      arrangements of the same elements coincide. */
  lemma {:induction false} SortedOrderUnique<T>(a: seq<T>, b: seq<T>, key: T -> int)
    requires SortedDesc(a, key) && SortedDesc(b, key)
    requires Injective(a, key) && Injective(b, key)
    requires |a| == |b|
    requires forall x :: x in a <==> x in b
    ensures a == b
    decreases |a|
  {
    if |a| > 0 {
      assert a[0] in b && b[0] in a;
      var j :| 0 <= j < |b| && b[j] == a[0];
      var i :| 0 <= i < |a| && a[i] == b[0];
      assert key(b[j]) == key(b[0]);
      assert j == 0;
      TailsSameElements(a, b, key);
      SortedOrderUnique(a[1..], b[1..], key);
      assert a == [a[0]] + a[1..] && b == [b[0]] + b[1..];
    }
  }

  lemma TailsSameElements<T>(a: seq<T>, b: seq<T>, key: T -> int)
    requires |a| > 0 && |b| > 0 && a[0] == b[0]
    requires Injective(a, key) && Injective(b, key)
    requires forall x :: x in a <==> x in b
    ensures forall x :: x in a[1..] <==> x in b[1..]
  {
    forall x | x in a[1..] ensures x in b[1..] {
      var k :| 1 <= k < |a| && a[k] == x;
      assert key(a[k]) != key(a[0]);
      assert x in a;
      var m :| 0 <= m < |b| && b[m] == x;
      assert m != 0;
      assert b[1..][m - 1] == x;
    }
    forall x | x in b[1..] ensures x in a[1..] {
      var k :| 1 <= k < |b| && b[k] == x;
      assert key(b[k]) != key(b[0]);
      assert x in b;
      var m :| 0 <= m < |a| && a[m] == x;
      assert m != 0;
      assert a[1..][m - 1] == x;
    }
  }
}

=== FILE: text.dfy ===
/** Character and string helpers shared by the dashboard model: decimal
    rendering of naturals (JavaScript's `String(n)` and template `${n}` on a
    non-negative integer), its parser, left padding, ASCII lower-casing and
    substring search. */
module Text {

  import opened Options

  predicate IsDigit(c: char) {
    '0' <= c <= '9'
  }

  predicate AllDigits(s: string) {
    forall i :: 0 <= i < |s| ==> IsDigit(s[i])
  }

  function DigitValue(c: char): (d: nat)
    requires IsDigit(c)
    ensures d < 10
  {
    c as int - '0' as int
  }

  function DigitChar(d: nat): (c: char)
    requires d < 10
    ensures IsDigit(c) && DigitValue(c) == d
  {
    ('0' as int + d) as char
  }

  /** Decimal rendering of a natural number, most significant digit first. */
  function NatToString(n: nat): (s: string)
    ensures |s| >= 1
    ensures AllDigits(s)
    ensures s[0] == '0' ==> n == 0
    decreases n
  {
    if n < 10 then [DigitChar(n)] else NatToString(n / 10) + [DigitChar(n % 10)]
  }

  /** The number a non-empty digit string denotes. */
  function DigitsValue(s: string): nat
    requires AllDigits(s)
    decreases |s|
  {
    if s == [] then 0 else DigitsValue(s[..|s| - 1]) * 10 + DigitValue(s[|s| - 1])
  }

  /** Parses a decimal natural; `None` for the empty string or any non-digit. */
  function ParseNat(s: string): (r: Option<nat>)
    ensures r.Some? <==> |s| > 0 && AllDigits(s)
  {
    if |s| > 0 && AllDigits(s) then Some(DigitsValue(s)) else None
  }

  lemma {:induction false} DigitsValueOfNatToString(n: nat)
    ensures DigitsValue(NatToString(n)) == n
    decreases n
  {
    if n >= 10 {
      var s := NatToString(n);
      assert s[..|s| - 1] == NatToString(n / 10);
      DigitsValueOfNatToString(n / 10);
    }
  }

  /** Parsing inverts rendering. */
  lemma ParseNatToString(n: nat)
    ensures ParseNat(NatToString(n)) == Some(n)
  {
    DigitsValueOfNatToString(n);
  }

  /** Distinct numbers render to distinct strings. */
  lemma NatToStringInjective(a: nat, b: nat)
    ensures NatToString(a) == NatToString(b) <==> a == b
  {
    if NatToString(a) == NatToString(b) {
      ParseNatToString(a);
      ParseNatToString(b);
    }
  }

  function Pow10(k: nat): (p: nat)
    ensures p >= 1
  {
    if k == 0 then 1 else 10 * Pow10(k - 1)
  }

  /** The rendering of `n` has more than `k` characters once `n` reaches
      10^k, and at most `k + 1` while `n` is below 10^(k+1). */
  lemma {:induction false} NatToStringLength(n: nat, k: nat)
    ensures Pow10(k) <= n ==> |NatToString(n)| > k
    ensures n < Pow10(k + 1) ==> |NatToString(n)| <= k + 1
    decreases k
  {
    if k > 0 && n >= 10 {
      NatToStringLength(n / 10, k - 1);
    }
  }

  /** `String.prototype.padStart(width, pad)`: prefixes copies of `pad`
      until the string is `width` long; a string already that long is
      returned unchanged. */
  function PadStart(s: string, width: nat, pad: char): (r: string)
    ensures |r| == if |s| >= width then |s| else width
    ensures r[|r| - |s|..] == s
    ensures forall i :: 0 <= i < |r| - |s| ==> r[i] == pad
  {
    if |s| >= width then s else seq(width - |s|, _ => pad) + s
  }

  /** `toLowerCase` on the ASCII range; every other character is kept. */
  function LowerChar(c: char): (l: char)
    ensures 'A' <= c <= 'Z' ==> 'a' <= l <= 'z' && l as int - 'a' as int == c as int - 'A' as int
    ensures !('A' <= c <= 'Z') ==> l == c
  {
    if 'A' <= c <= 'Z' then (c as int - 'A' as int + 'a' as int) as char else c
  }

  function Lower(s: string): (r: string)
    ensures |r| == |s|
    ensures forall i :: 0 <= i < |s| ==> r[i] == LowerChar(s[i])
  {
    seq(|s|, i requires 0 <= i < |s| => LowerChar(s[i]))
  }

  /** Lower-casing twice is lower-casing once. */
  lemma LowerIdempotent(s: string)
    ensures Lower(Lower(s)) == Lower(s)
  {
  }

  predicate OccursAt(text: string, q: string, i: int) {
    0 <= i && i + |q| <= |text| && text[i..i + |q|] == q
  }

  /** `String.prototype.includes`: does `q` occur in `text` at some offset? */
  function Contains(text: string, q: string): (b: bool)
    ensures b <==> exists i :: OccursAt(text, q, i)
    decreases |text|
  {
    if |q| > |text| then false
    else if text[..|q|] == q then
      assert OccursAt(text, q, 0);
      true
    else
      var tail := text[1..];
      var rest := Contains(tail, q);
      if rest then
        var j :| OccursAt(tail, q, j);
        assert tail[j..j + |q|] == text[j + 1..j + 1 + |q|];
        assert OccursAt(text, q, j + 1);
        true
      else
        assert forall i :: OccursAt(text, q, i) ==> OccursAt(tail, q, i - 1) by {
          forall i | OccursAt(text, q, i) ensures OccursAt(tail, q, i - 1) {
            assert tail[i - 1..i - 1 + |q|] == text[i..i + |q|];
          }
        }
        false
  }
}

=== FILE: time.dfy ===
/** Millisecond constants and the locale formatters of the JavaScript
    runtime. Instants are epoch milliseconds (`Date.now()`,
    `Date.prototype.getTime()`); what the runtime's locale formatting
    produces is not modelled, so it is passed in as plain functions. */
module Time {

  const MinuteMs: int := 60000
  const HourMs: int := 3600000
  const DayMs: int := 86400000

  /** The four locale renderings the dashboard asks for. */
  datatype Locale = Locale(
    /** `toLocaleTimeString([], {hour: '2-digit', minute: '2-digit'})` */
    hourMinute: int -> string,
    /** `toLocaleTimeString([], {hour: '2-digit'})` */
    hour: int -> string,
    /** `toLocaleDateString()` with no arguments */
    date: int -> string,
    /** `toLocaleDateString('en-US', {month: 'short', day: '2-digit', year: 'numeric'})` */
    shortDate: int -> string)
}

=== FILE: transactions.dfy ===
/** `generateMockTransactions`: 25 synthetic transactions with sequential
    ids, a weighted random status, a tiered amount with jitter and a date
    within the last two weeks, listed newest first. Every `Math.random()`
    call is one draw of an oracle sequence, six per row. */
module Transactions {

  import opened Options
  import opened Text
  import opened Time
  import opened Sorting
  import opened Draws

  datatype Status = Success | Pending | Failed

  const Statuses: seq<Status> := [Success, Pending, Failed]
  const StatusWeights: seq<real> := [0.75, 0.20, 0.05]

  /** `getWeightedStatus()` on the draw `r`. */
  function WeightedStatus(r: real): (s: Status)
    ensures s == Success <==> r < 0.75
    ensures s == Pending <==> 0.75 <= r < 0.95
    ensures s == Failed <==> 0.95 <= r
  {
    if r < StatusWeights[0] then Success
    else if r < StatusWeights[0] + StatusWeights[1] then Pending
    else Failed
  }

  function StatusIndex(s: Status): (k: nat)
    ensures k < 3 && Statuses[k] == s
  {
    match s
    case Success => 0
    case Pending => 1
    case Failed => 2
  }

  /** Where a status's band of draws starts: the sum of the weights listed
      before it. */
  function BandStart(k: nat): real
    requires k <= 3
  {
    if k == 0 then 0.0 else BandStart(k - 1) + StatusWeights[k - 1]
  }

  /** The status bands tile `[0, 1)`: a uniform draw lands in the band of
      status `s`, whose width is that status's weight, and nowhere else. So
      a uniform draw yields success, pending and failed with probabilities
      0.75, 0.20 and 0.05. */
  lemma StatusBands(r: real, s: Status)
    requires 0.0 <= r < 1.0
    ensures WeightedStatus(r) == s <==>
      BandStart(StatusIndex(s)) <= r < BandStart(StatusIndex(s)) + StatusWeights[StatusIndex(s)]
    ensures BandStart(3) == 1.0
  {
    assert BandStart(1) == 0.75 && BandStart(2) == 0.95 && BandStart(3) == 1.0;
  }

  const Customers: seq<string> := [
    "Acme Corp", "TechStart Inc", "Global Solutions", "Digital Ventures",
    "Innovation Labs", "Future Systems", "NextGen Company", "Smart Industries",
    "DataFlow Corp", "CloudTech Ltd", "Synergy Group", "Pioneer Enterprises",
    "Quantum Solutions", "Alpha Technologies", "Beta Dynamics", "Gamma Industries"]
  const Regions: seq<string> := ["North America", "Europe", "Asia", "Other"]
  const BaseAmounts: seq<int> := [500, 1200, 2800, 5500, 12000, 25000]

  const RowCount: nat := 25
  const FirstNumber: nat := 2024001
  /** Draws one row consumes: base amount, jitter, days back, customer,
      status, region, in the order the source evaluates them. */
  const DrawsPerRow: nat := 6

  /** One row of the table. `instant` is the moment `date` renders; the
      newest-first sort orders rows by it. */
  datatype Transaction = Transaction(
    id: string,
    customer: string,
    amount: int,
    status: Status,
    instant: int,
    date: string,
    region: string)

  function InstantOf(t: Transaction): int {
    t.instant
  }

  function IdOf(t: Transaction): string {
    t.id
  }

  /** `TXN${String(2024001 + i).padStart(7, '0')}` */
  function TxnId(i: nat): (id: string)
    ensures |id| >= 10 && id[..3] == "TXN" && AllDigits(id[3..])
  {
    NatToStringLength(FirstNumber + i, 6);
    "TXN" + PadStart(NatToString(FirstNumber + i), 7, '0')
  }

  /** Every id is "TXN" followed by the decimal number 2024001 + i with no
      padding (the number already has at least seven digits), exactly seven
      digits for every row the dashboard generates, and it reads back to
      that number. */
  lemma TxnIdShape(i: nat)
    ensures TxnId(i)[..3] == "TXN"
    ensures TxnId(i)[3..] == NatToString(FirstNumber + i)
    ensures ParseNat(TxnId(i)[3..]) == Some(FirstNumber + i)
    ensures i < RowCount ==> |TxnId(i)| == 10
  {
    NatToStringLength(FirstNumber + i, 6);
    ParseNatToString(FirstNumber + i);
  }

  /** Different rows never share an id. */
  lemma TxnIdInjective(i: nat, j: nat)
    ensures TxnId(i) == TxnId(j) <==> i == j
  {
    if TxnId(i) == TxnId(j) {
      TxnIdShape(i);
      TxnIdShape(j);
    }
  }

  /** The i-th row built in the loop from its six draws `d`, at clock `now`. */
  function MakeRow(i: nat, now: int, d: seq<real>, locale: Locale): (t: Transaction)
    requires |d| == DrawsPerRow && UnitDraws(d)
    ensures t.id == TxnId(i)
    ensures t.amount - BaseAmounts[Pick(d[0], 6)] == Pick(d[1], 3000)
    ensures 500 <= t.amount < 25000 + 3000
    ensures t.customer == Customers[Pick(d[3], |Customers|)]
    ensures t.region == Regions[Pick(d[5], |Regions|)]
    ensures t.status == WeightedStatus(d[4])
    ensures t.instant == now - Pick(d[2], 14) * DayMs
    ensures now - 13 * DayMs <= t.instant <= now && (now - t.instant) % DayMs == 0
    ensures t.date == locale.shortDate(t.instant)
  {
    var amount := BaseAmounts[Pick(d[0], |BaseAmounts|)] + Pick(d[1], 3000);
    var daysBack := Pick(d[2], 14);
    var instant := now - daysBack * DayMs;
    assert now - instant == daysBack * DayMs && (daysBack * DayMs) % DayMs == 0;
    Transaction(
      TxnId(i),
      Customers[Pick(d[3], |Customers|)],
      amount,
      WeightedStatus(d[4]),
      instant,
      locale.shortDate(instant),
      Regions[Pick(d[5], |Regions|)])
  }

  /** The rows in generation order, before sorting. */
  function Rows(now: int, draws: seq<real>, locale: Locale): (rows: seq<Transaction>)
    requires |draws| >= RowCount * DrawsPerRow && UnitDraws(draws)
    ensures |rows| == RowCount
    ensures forall i :: 0 <= i < RowCount ==>
      rows[i] == MakeRow(i, now, draws[DrawsPerRow * i..DrawsPerRow * i + DrawsPerRow], locale)
  {
    seq(RowCount, i requires 0 <= i < RowCount => MakeRow(i, now, RowDraws(draws, i), locale))
  }

  /** The six draws row `i` consumes. */
  function RowDraws(draws: seq<real>, i: nat): (d: seq<real>)
    requires i < RowCount && |draws| >= RowCount * DrawsPerRow && UnitDraws(draws)
    ensures |d| == DrawsPerRow && UnitDraws(d)
  {
    draws[DrawsPerRow * i..DrawsPerRow * i + DrawsPerRow]
  }

  /** The bounds every generated row keeps. */
  predicate Plausible(t: Transaction, now: int) {
    500 <= t.amount < 28000 && now - 13 * DayMs <= t.instant <= now
  }

  lemma RowsFacts(now: int, draws: seq<real>, locale: Locale)
    requires |draws| >= RowCount * DrawsPerRow && UnitDraws(draws)
    ensures Injective(Rows(now, draws, locale), IdOf)
    ensures forall t :: t in Rows(now, draws, locale) ==> Plausible(t, now)
  {
    var rows := Rows(now, draws, locale);
    forall i, j | 0 <= i < j < |rows| ensures IdOf(rows[i]) != IdOf(rows[j]) {
      TxnIdInjective(i, j);
    }
  }

  lemma PermutationKeepsPlausible(a: seq<Transaction>, b: seq<Transaction>, now: int)
    requires multiset(a) == multiset(b)
    requires forall t :: t in b ==> Plausible(t, now)
    ensures forall k :: 0 <= k < |a| ==> Plausible(a[k], now)
  {
    forall k | 0 <= k < |a| ensures Plausible(a[k], now) {
      assert a[k] in multiset(a);
    }
  }

  /** `generateMockTransactions()`: the 25 rows, reordered newest first. The
      ids stay pairwise distinct and every row keeps its bounds. */
  function GenerateMockTransactions(now: int, draws: seq<real>, locale: Locale)
    : (r: seq<Transaction>)
    requires |draws| >= RowCount * DrawsPerRow && UnitDraws(draws)
    ensures |r| == 25
    ensures multiset(r) == multiset(Rows(now, draws, locale))
    ensures SortedDesc(r, InstantOf)
    ensures Injective(r, IdOf)
    ensures forall k :: 0 <= k < |r| ==> Plausible(r[k], now)
  {
    var rows := Rows(now, draws, locale);
    RowsFacts(now, draws, locale);
    var sorted := SortByKeyDesc(rows, InstantOf);
    PermutationKeepsInjective(sorted, rows, IdOf);
    PermutationKeepsPlausible(sorted, rows, now);
    sorted
  }
}

=== FILE: trend.dfy ===
/** The "realistic trend" generator behind every time-series chart
    (`generateRealisticTrend`): a running value that starts at 60% of the
    range, is multiplied by a growth factor per point, is clamped into
    `[min, max]` and is emitted floored. `Math.random()` is an oracle
    sequence of draws and `Math.sin` a caller-supplied function. */
module Trend {

  /** The series kind selecting the growth bias; `Flat` stands for any name
      the `switch` does not list, which leaves the bias at 0. */
  datatype Shape = Revenue | Users | Performance | Flat

  function ShapeOf(name: string): (s: Shape)
    ensures s == Revenue <==> name == "revenue"
    ensures s == Users <==> name == "users"
    ensures s == Performance <==> name == "performance"
    ensures s == Flat <==> name != "revenue" && name != "users" && name != "performance"
  {
    if name == "revenue" then Revenue
    else if name == "users" then Users
    else if name == "performance" then Performance
    else Flat
  }

  /** The bias added to the growth factor at point `i` of `points`. Revenue
      always grows on bias alone; users dip exactly in the band from 40% to
      80% of the series; performance oscillates with `sin(i * 0.5)`. */
  function Bias(shape: Shape, i: int, points: int, sin: real -> real): (b: real)
    ensures shape == Revenue ==> 0.01 <= b <= 0.03
    ensures shape == Users ==>
      (b < 0.0 <==> (points as real) * 0.4 <= i as real < (points as real) * 0.8)
    ensures shape == Performance ==> b == sin(i as real * 0.5) * 0.01
    ensures shape == Flat ==> b == 0.0
  {
    match shape
    case Revenue =>
      if (i as real) < (points as real) * 0.3 then 0.02
      else if (i as real) < (points as real) * 0.7 then 0.01
      else 0.03
    case Users =>
      if (i as real) < (points as real) * 0.4 then 0.015
      else if (i as real) < (points as real) * 0.8 then -0.005
      else 0.025
    case Performance => sin(i as real * 0.5) * 0.01
    case Flat => 0.0
  }

  /** `(Math.random() - 0.5) * 0.1`: a uniform draw becomes a variation of
      at most five percent either way. */
  function Variation(draw: real): (v: real)
    ensures 0.0 <= draw < 1.0 ==> -0.05 <= v < 0.05
  {
    (draw - 0.5) * 0.1
  }

  /** `Math.max(min, Math.min(max, x))`. */
  function Clamp(x: real, lo: int, hi: int): (c: real)
    ensures lo <= hi ==> lo as real <= c <= hi as real
    ensures lo <= hi && lo as real <= x <= hi as real ==> c == x
    ensures lo <= hi && x > hi as real ==> c == hi as real
    ensures lo <= hi && x < lo as real ==> c == lo as real
    ensures lo > hi ==> c == lo as real
  {
    var capped := if x < hi as real then x else hi as real;
    if capped > lo as real then capped else lo as real
  }

  /** The initial running value, 60% of the way from `lo` to `hi`. */
  function Start(lo: int, hi: int): (v: real)
    ensures lo <= hi ==> lo as real <= v <= hi as real
  {
    lo as real + (hi - lo) as real * 0.6
  }

  /** One loop iteration: multiply by the growth factor of point `i`, then
      clamp. */
  function Step(shape: Shape, points: int, lo: int, hi: int, sin: real -> real,
                v: real, i: int, draw: real): (next: real)
    ensures lo <= hi ==> lo as real <= next <= hi as real
    ensures lo > hi ==> next == lo as real
  {
    var growthFactor := 1.0 + Bias(shape, i, points, sin) + Variation(draw);
    Clamp(v * growthFactor, lo, hi)
  }

  /** The running value after `k` iterations of the loop: the reference
      definition the generator is proved against. */
  function Running(shape: Shape, points: int, lo: int, hi: int, draws: seq<real>,
                   sin: real -> real, k: nat): real
    requires k <= |draws|
    decreases k
  {
    if k == 0 then Start(lo, hi)
    else Step(shape, points, lo, hi, sin, Running(shape, points, lo, hi, draws, sin, k - 1),
              k - 1, draws[k - 1])
  }

  /** Every running value after the first step lies in `[lo, hi]`, and its
      floor does too because the bounds are integers. */
  lemma RunningWithinBounds(shape: Shape, points: int, lo: int, hi: int, draws: seq<real>,
                            sin: real -> real, k: nat)
    requires 1 <= k <= |draws|
    requires lo <= hi
    ensures lo as real <= Running(shape, points, lo, hi, draws, sin, k) <= hi as real
    ensures lo <= Running(shape, points, lo, hi, draws, sin, k).Floor <= hi
  {
  }

  /** `generateRealisticTrend(points, min, max, type)`: one value per loop
      iteration, each the floor of the clamped running value, so every value
      lies in `[lo, hi]` whatever the draws are. With `lo > hi` the clamp
      always yields `lo`. */
  method GenerateRealisticTrend(points: int, lo: int, hi: int, shape: Shape,
                                draws: seq<real>, sin: real -> real)
    returns (data: seq<int>)
    requires points <= |draws|
    ensures |data| == if points > 0 then points else 0
    ensures forall i :: 0 <= i < |data| ==>
      data[i] == Running(shape, points, lo, hi, draws, sin, i + 1).Floor
    ensures lo <= hi ==> forall i :: 0 <= i < |data| ==> lo <= data[i] <= hi
    ensures lo > hi ==> forall i :: 0 <= i < |data| ==> data[i] == lo
  {
    data := [];
    var current := Start(lo, hi);
    var i := 0;
    while i < points
      invariant 0 <= i <= |draws|
      invariant i <= if points > 0 then points else 0
      invariant |data| == i
      invariant current == Running(shape, points, lo, hi, draws, sin, i)
      invariant forall j :: 0 <= j < i ==>
        data[j] == Running(shape, points, lo, hi, draws, sin, j + 1).Floor
      invariant lo <= hi ==> forall j :: 0 <= j < i ==> lo <= data[j] <= hi
      invariant lo > hi ==> forall j :: 0 <= j < i ==> data[j] == lo
    {
      current := Step(shape, points, lo, hi, sin, current, i, draws[i]);
      if lo <= hi {
        RunningWithinBounds(shape, points, lo, hi, draws, sin, i + 1);
      }
      data := data + [current.Floor];
      i := i + 1;
    }
  }
}
